=== FILE: README.md ===
# Casper staking contract: accounting core in Dafny

This project models the accounting core of a Casper staking contract. An
account stakes an ERC-20 style token. It accrues a reward over time, and it
can unstake principal, claim the reward (minted to it) or restake the reward
(folded into principal). Every operation goes through one engine,
`update_available`. The engine accrues the pending reward into `available`,
adjusts the principal with checked U256 arithmetic and stamps the record with
the block time. Around the engine sit the published entry points. They
bracket `unstake` and `claim` with a reentrancy latch. A one-shot access
group makes the constructor run once.

Modules, one per source file plus property modules:

- `Types`: U256 and u64 as bounded naturals, the runtime `Key`, the error
  taxonomy, and checked add/sub/mul that fail explicitly.
- `Data`: the `UserInfo` record and its default, the users dictionary
  (a map from account hash), and the staking-token and reward-multiplier keys.
  Reading a key that was never stored aborts.
- `Staking`: `_get_rewards`, `update_available`, `stake`, `unstake`, `claim`,
  `restake` and `init`. Each operation is a pure function from a `Ledger`
  (storage plus the trace of token calls made) to an `Outcome`. `Done`
  carries the new ledger. `Aborted` carries the error and the token calls
  already issued, which the runtime rolls back.
- `Entry`: the entry points, the reentrancy latch, the constructor group,
  and runs of transactions in which every reverted transaction leaves the
  contract unchanged.
- `StakingProps`, `EntryProps`: lemmas relating several operations.

Modelling choices:

- Block time and the contract's package hash are explicit inputs (`Env`).
  Both `update_available` and `_get_rewards` see the same `now`. The caller
  identity is the `caller` argument of each entry point.
- Token calls (`transfer_from`, `transfer`, `mint`) are not executed. They
  are appended to a trace, so their order relative to failures is visible.
  Each trace entry also records whether the reentrancy latch was raised when
  the call was issued. While a token call runs, the token contract may call
  back into this one, and the guard then judges the callback by that latch.
  The latch is part of the `Ledger`; the accounting engine never reads or
  writes it.
- A `runtime::revert` or a panic (an `unwrap` on `None`) ends the
  transaction, and Casper rolls back every storage write and token call it
  made. In the model an aborted operation yields an error and the previous
  contract is kept.
- **Reward direction.** `_get_rewards` computes
  `1 * (last_reward_time - current_block_time) * reward_multiplier` on u64
  (contract/src/staking.rs:110-114). On any later block time the subtraction
  underflows. The model isolates it in `Staking.RewardInterval`. The engine
  takes a `RewardFormula` argument:
  - `InvertedAsWritten` is the source's subtraction with wrap-around modulo
    2^64, the behaviour of a release build without overflow checks. This is
    the chosen semantics for the source as written. With overflow checks on,
    it would panic instead.
  - `Elapsed` is the evidently intended `now - last`, aborting if the clock
    went backwards.

  Lemmas that hold for both directions are stated for any formula. See
  "## Findings".
- The reward is `1 * interval * multiplier`. It does not depend on the
  principal (`StakingProps.RewardIgnoresPrincipal`). An account that stakes
  0 starts the clock and then earns as much as any other. The model keeps
  this as written. Whether `1` stands where the staked amount was meant
  cannot be told from the code, so it is not listed as a finding.
- The latch is assumed to behave as follows, because the reentrancy guard's
  code is not part of this model. The latch is a flag in the contract's own
  storage, so it is rolled back with everything else when a transaction
  reverts. `set_reentrancy` fails when the latch is already set and sets it
  otherwise. `clear_reentrancy` lowers it. The guard's `init` stores a
  lowered latch.
- `unstake` and `claim` raise the latch before the core operation runs, so
  their `transfer` and `mint` are issued with it raised. `stake` is not
  guarded, so its `transfer_from` is issued with the latch lowered, and a
  callback into `unstake` or `claim` at that moment is not stopped by the
  guard. `EntryProps.InstalledTokenCallsLatch` proves both for every call in
  the trace of the installed contract, whatever transactions ran.
- The guarded entry points clear the latch only on the normal path, which
  suggests a latch left set after a failed call. But the failing transaction
  is rolled back, the `set_reentrancy` write included, so the latch is not
  left set. `EntryProps.RunKeepsLatchAtRest` proves this.

## Model

| member | source | states |
|---|---|---|
| Types.CheckedAdd | contract/src/staking.rs:62-67 | U256 `checked_add(..).unwrap()`: succeeds exactly when the true sum is below 2^256 and yields it; otherwise an overflow abort |
| Types.CheckedSub | contract/src/staking.rs:72 | U256 `checked_sub(..).unwrap()`: succeeds exactly when the subtrahend is at most the minuend, and the result plus the subtrahend is the minuend |
| Types.CheckedMul | contract/src/staking.rs:110-114 | U256 `checked_mul(..).unwrap()`: succeeds exactly when the true product is below 2^256 |
| Types.WrappingSub64 | contract/src/staking.rs:111 | u64 subtraction without overflow checks: the plain difference when it is non-negative, otherwise 2^64 minus the shortfall |
| Types.UserErrorCode | contract/src/error.rs:5-12 | InsufficientAmount surfaces as user error code 1; an unwrapped overflow (a panic) carries no user code |
| Data.DefaultUserInfo | contract/src/data.rs:15-23 | the default record has zero principal, zero available and last reward time 0 |
| Data.InitUsers | contract/src/data.rs:52-54 | creating the users dictionary leaves every account without a record and the parameters untouched |
| Data.GetUser | contract/src/data.rs:66-68 | a record is returned exactly when one is stored for the account, and it is the stored one |
| Data.SetUser | contract/src/data.rs:62-68 | after a write, reading the account returns the written record; every other account reads as before |
| Data.UserInfoOf | contract/src/staking.rs:78-80 | reading an account never fails: the stored record, or the default record when there is none |
| Data.SetThenRead | contract/src/data.rs:62-68 | write-then-read round trip through `user_info`, and no other account's view changes |
| Data.SetStakingToken | contract/src/data.rs:27-29 | the getter returns the token last stored; users and multiplier unchanged |
| Data.GetStakingToken | contract/src/data.rs:31-33 | aborts with a missing-key error exactly when the token was never stored |
| Data.SetRewardMultiplier | contract/src/data.rs:37-39 | the getter returns the multiplier last stored; users and token unchanged |
| Data.GetRewardMultiplier | contract/src/data.rs:41-43 | aborts with a missing-key error exactly when the multiplier was never stored |
| Staking.RewardInterval | contract/src/staking.rs:110-111 | as written: `last - now` wrapped, so a later `now` gives 2^64 - (now - last); corrected: `now - last`, failing exactly when the clock went back |
| Staking.GetRewards | contract/src/staking.rs:98-117 | zero for an account that never accrued, without reading the multiplier; zero when the last accrual is at `now`; otherwise interval times multiplier, or an abort on overflow or a missing multiplier |
| Staking.Accrued | contract/src/staking.rs:62-65 | post-accrual `available` is stored `available` plus the pending reward; it fails exactly when the reward fails (propagating its error) or the sum reaches 2^256 |
| Staking.UpdateAvailable | contract/src/staking.rs:59-76 | accrual failure propagates; a stake adds exactly `amount` to principal and fails only on U256 overflow; an unstake fails with InsufficientAmount exactly when `amount` exceeds principal and otherwise subtracts exactly `amount`; `available` becomes the accrued value and the time stamp becomes `now` |
| Staking.Persist | contract/src/staking.rs:28 | storing a record: the account reads back the record, every other account and both parameters are unchanged, and the trace is the old trace followed by exactly the new calls (also lines 36, 46, 56) |
| Staking.Stake | contract/src/staking.rs:21-29 | commits exactly when the token is stored and `update_available` succeeds; the `transfer_from` into the contract's package is issued before the record is computed, so an abort after the token is known has already issued it; on success principal grows by `amount`, only the caller's record is written and that one call is appended, tagged with the latch as it stood |
| Staking.Unstake | contract/src/staking.rs:31-37 | commits exactly when `update_available` succeeds and the token is stored; the record is computed before any token call, so every abort has issued nothing; it fails with InsufficientAmount exactly when `amount` exceeds principal (given accrual succeeds); on success principal drops by `amount` and one `transfer` to the caller is appended |
| Staking.Claim | contract/src/staking.rs:39-47 | commits exactly when accrual succeeds and the token is stored; on success exactly one `mint` of the post-accrual `available` to the caller is appended, the caller's record becomes (same principal, 0, now) and no other record changes; aborts issue nothing |
| Staking.Restake | contract/src/staking.rs:49-57 | commits exactly when accrual succeeds and principal plus post-accrual `available` stays below 2^256 (the checked fold); on success principal becomes that sum, `available` is 0, no token call is made and no other record changes |
| Staking.Init | contract/src/staking.rs:15-19 | after init every account reads as the default record and both parameters read back as given |
| StakingProps.RewardIgnoresPrincipal | contract/src/staking.rs:110-114 | two records differing only in principal accrue the same reward: the reward does not depend on the amount staked |
| StakingProps.SameTimeAccruesNothing | contract/src/staking.rs:110-114 | acting again at the block time of the last accrual accrues zero, in either direction of the formula |
| StakingProps.OperationsStampNow | contract/src/staking.rs:74 | every successful operation leaves the caller's last reward time at `now` |
| StakingProps.OperationsTouchOnlyCaller | contract/src/staking.rs:28 | each operation writes only the caller's record |
| StakingProps.OperationsKeepParameters | contract/src/staking.rs:21-57 | no operation changes the staking token or the reward multiplier |
| StakingProps.RestakeIdempotentAtSameTime | contract/src/staking.rs:49-57 | a second restake at the same block time changes nothing |
| StakingProps.SecondClaimMintsNothing | contract/src/staking.rs:39-47 | a second claim at the same block time mints 0 and leaves storage as the first left it |
| StakingProps.StakeThenUnstakeRestoresPrincipal | contract/src/staking.rs:21-37 | unstaking at the same block time what was just staked restores the principal, keeps the accrued reward, and the trace shows the pull-in then the same amount sent back |
| StakingProps.OverUnstakeRejected | contract/src/staking.rs:69-71 | unstaking more than principal fails with InsufficientAmount before any token call |
| StakingProps.InvertedRewardWraps | contract/src/staking.rs:110-114 | as written, acting at a later time yields (2^64 - elapsed) times the multiplier |
| StakingProps.InvertedRewardCounterexample | contract/src/staking.rs:110-114 | last accrual 1000, now 1010, multiplier 2: as written 2 * (2^64 - 10), not 20; corrected 20 |
| StakingProps.ElapsedRewardIsProportional | contract/src/staking.rs:110-114 | corrected formula: reward is exactly elapsed time times multiplier |
| StakingProps.ElapsedAccrualIsPathIndependent | contract/src/staking.rs:59-65 | corrected formula: touching an account in between does not change its accrued `available` |
| StakingProps.InvertedAccrualDependsOnPath | contract/src/staking.rs:59-65 | as written: a touch at 1001 before acting at 1002 changes the accrued amount from 2^64 - 2 to 2 * (2^64 - 1) |
| Entry.Commit | contract/src/staking.rs:86-88 | a transaction commits exactly when the operation finished, and an abort surfaces its error |
| Entry.SetReentrancy | contract/bin/staking_contract.rs:67 | fails with ReentrantCall exactly when the latch is already set (assumed guard behaviour); otherwise only raises it |
| Entry.ClearReentrancy | contract/bin/staking_contract.rs:69 | lowers the latch and changes nothing else |
| Entry.Constructor | contract/bin/staking_contract.rs:40-54 | denied exactly when the constructor group is closed; otherwise runs the staking init, then lowers the latch |
| Entry.Fresh | contract/bin/staking_contract.rs:92-112 | a newly created contract has the constructor group open and no parameters stored |
| Entry.Install | contract/bin/staking_contract.rs:108-123 | after installation the group is closed, the latch is down, the parameters read back as given and every account has the default record |
| Entry.EntryStake | contract/bin/staking_contract.rs:56-61 | commits exactly when the core stake for the caller finishes (token calls assumed to succeed), and otherwise fails with the core's error; the latch is left as found and the `transfer_from` is issued with it as found |
| Entry.EntryUnstake | contract/bin/staking_contract.rs:63-70 | rejected with ReentrantCall when the latch is set; otherwise the core unstake runs for the caller with the latch raised, so its `transfer` is issued with the latch raised; commits exactly when that core unstake finishes (token calls assumed to succeed), otherwise fails with the core's error, and leaves the latch lowered |
| Entry.EntryRestake | contract/bin/staking_contract.rs:72-76 | commits exactly when the core restake for the caller finishes, and otherwise fails with the core's error; the latch is left as found and no token call is made |
| Entry.EntryClaim | contract/bin/staking_contract.rs:78-84 | rejected with ReentrantCall when the latch is set; otherwise the core claim runs for the caller with the latch raised, so its `mint` is issued with the latch raised; commits exactly when that core claim finishes (token calls assumed to succeed), otherwise fails with the core's error, and leaves the latch lowered |
| EntryProps.NestedGuardedCallsRejected | contract/bin/staking_contract.rs:63-84 | a nested unstake or claim is rejected with ReentrantCall exactly when the latch is set |
| EntryProps.EntryUnstakeInsufficientAmount | contract/bin/staking_contract.rs:63-70 | with the latch at rest and accrual succeeding, the published unstake fails with InsufficientAmount (user code 1) exactly when the amount exceeds the caller's principal |
| EntryProps.UnguardedEntriesIgnoreLatch | contract/bin/staking_contract.rs:56-61 | whether stake commits and what it stores, and the whole result of restake, do not depend on the latch |
| EntryProps.ApplyKeepsGuardedCallsLatched | contract/bin/staking_contract.rs:56-84 | from a contract at rest, one transaction issues each `transfer` and `mint` with the latch raised and each `transfer_from` with it lowered |
| EntryProps.RunKeepsGuardedCallsLatched | contract/bin/staking_contract.rs:56-84 | the same for every call of any sequence of transactions |
| EntryProps.InstalledTokenCallsLatch | contract/bin/staking_contract.rs:56-84 | in the installed contract after any transactions, a callback into unstake or claim made while a `transfer` or `mint` is in flight is rejected, and one made while a stake's `transfer_from` is in flight is not stopped by the guard |
| EntryProps.EntriesActForCaller | contract/bin/staking_contract.rs:56-84 | each entry point runs its core operation for the runtime caller with the amount argument unchanged |
| EntryProps.ApplyKeepsLatchAtRest | contract/bin/staking_contract.rs:63-84 | one transaction, committed or reverted, leaves a lowered latch lowered |
| EntryProps.RunKeepsLatchAtRest | contract/bin/staking_contract.rs:63-84 | over any sequence of transactions a lowered latch stays lowered |
| EntryProps.ApplyKeepsConfiguration | contract/bin/staking_contract.rs:108-123 | with the group closed, one transaction cannot reopen it or change the parameters |
| EntryProps.RunKeepsConfiguration | contract/bin/staking_contract.rs:108-123 | the same over any sequence of transactions |
| EntryProps.ConstructorRunsOnce | contract/bin/staking_contract.rs:108-123 | after installation and any transactions, the constructor is denied and the installed parameters are in force |
| EntryProps.ApplyLeavesOthersAlone | contract/src/staking.rs:21-57 | a transaction by another caller leaves an account's record unchanged |
| EntryProps.RunLeavesOthersAlone | contract/src/staking.rs:21-57 | any sequence of transactions by other callers leaves an account's record unchanged |
| EntryProps.PrincipalDecreasesOnlyByUnstake | contract/src/staking.rs:66-73 | a transaction lowers principal only as a committed unstake by that account, and then by exactly the amount |
| EntryProps.PrincipalMonotoneWithoutUnstake | contract/src/staking.rs:66-73 | without an unstake of its own, an account's principal never decreases over a run |
| EntryProps.OverUnstakeScenario | contract/src/staking.rs:66-73 | stake 50 then unstake 60 fails with InsufficientAmount and the principal stays 50 |
| EntryProps.StakeThenClaimScenario | contract/src/staking.rs:39-47 | stake 100 at 1000, claim at 1010, multiplier 2: trace is the pull-in, issued with the latch lowered, then a mint of 20 (corrected) or 2 * (2^64 - 10) (as written), issued with it raised; record (100, 0, 1010) |
| EntryProps.StakeThenRestakeScenario | contract/src/staking.rs:49-57 | stake 100 at 1000, restake at 1010: principal 100 + R, available 0, no new token call |

## Left out

- Token balances, allowances and supply are not modelled. The token wrapper
  in contract/src/interfaces/ierc20.rs is a thin layer over
  `runtime::call_contract`. The model records only the calls made, in order.
- What a token contract does during a call is not modelled, because it means
  control passing into foreign code. Each call in the trace records the
  latch a callback would find. The lemmas about a callback take the contract
  it would run against as a parameter whose latch is that recorded one.
- Deployment plumbing in `call()` and `get_entry_points()` is reduced to the
  constructor group being open during installation and closed after it. This
  covers `storage::new_contract`, the named keys and the entry-point table.
- Parsing `staking_token` with `ContractHash::from_formatted_str(..).unwrap()`
  is left out: the constructor takes the parsed hash.
- The contract_utils internals (`Dict`, `key_to_str`, `set_key`/`get_key`,
  `ReentrancyGuard`) are not part of this model. The users dictionary is a
  map keyed by account hash, assuming the key encoding is injective. Its
  creation makes the map empty.
- Entry.EntryStake: the `transfer_from` call is assumed to return normally.
  A token that refuses it reverts, and the whole transaction rolls back like
  any other abort. The model does not show that extra way to fail.
- Entry.EntryUnstake: the `transfer` call is assumed to return normally. A
  token-side revert rolls the transaction back like any other abort.
- Entry.EntryClaim: the `mint` call is assumed to return normally. A
  token-side revert rolls the transaction back like any other abort.
- Types.UserErrorCode: gives codes only for the domain error and for
  overflow panics. The codes of MissingKey, ReentrantCall and AccessDenied
  come from contract_utils and the runtime, which are not part of this model.
  The function returns None for them as a placeholder.
- Entry.SetReentrancy: the failure on an already-set latch is an assumption
  about the guard, not derived from visible code.
- Staking.RewardInterval: only the wrap-around semantics of the inverted
  subtraction is modelled. A build with overflow checks would panic instead
  whenever `last < now`.

## Findings

| source | as written | input that shows it | evidently intended | confidence | as-written member | corrected member |
|---|---|---|---|---|---|---|
| contract/src/staking.rs:111 | reward interval is `last_reward_time - current_block_time` on u64 | last accrual at block time 1000, act at 1010, multiplier 2: the subtraction underflows; wrapped it gives a reward of 2 * (2^64 - 10) | interval `current_block_time - last_reward_time`, reward 20 | high (not executed) | StakingProps.InvertedRewardCounterexample | StakingProps.ElapsedRewardIsProportional |
| contract/src/staking.rs:59-65 | accrual with the inverted interval depends on how often the account is touched | multiplier 1, last accrual 1000: asking at 1002 gives 2^64 - 2, touching at 1001 first gives 2 * (2^64 - 1) | accrual over an interval is the same however it is split | high (not executed) | StakingProps.InvertedAccrualDependsOnPath | StakingProps.ElapsedAccrualIsPathIndependent |

=== FILE: data.dfy ===
/**
 The contract's persistent data: the per-account `UserInfo` record, the
 `users` dictionary from account to record, and the two named keys holding
 the staking token and the reward multiplier.

 The dictionary is a Dafny map keyed by account hash; the source keys it by
 the string encoding of the account's `Key`, which is taken to be injective.
 */
module Data {
  import opened Types

  /**
   One account's staking state.
   - amount: the locked principal.
   - available: accrued reward not yet claimed or restaked.
   - lastRewardTime: block time of the last accrual; 0 means "never accrued".
   */
  datatype UserInfo = UserInfo(amount: U256, available: U256, lastRewardTime: Time)

  /** `UserInfo::default()`: the record of an account that never staked. */
  function DefaultUserInfo(): (r: UserInfo)
    ensures r.amount == 0 && r.available == 0 && r.lastRewardTime == 0
  {
    UserInfo(0, 0, 0)
  }

  /**
   The storage the contract owns. A named key that was never set is None;
   reading it with `get_key(..).unwrap()` aborts.
   */
  datatype Store = Store(
    users: map<AccountHash, UserInfo>,
    stakingToken: Option<ContractHash>,
    rewardMultiplier: Option<U256>)

  /** Storage of a freshly installed contract, before the constructor ran. */
  function EmptyStore(): (st: Store)
    ensures st.users == map[]
    ensures st.stakingToken.None? && st.rewardMultiplier.None?
  {
    Store(map[], None, None)
  }

  /** `Users::init`: creates the (empty) users dictionary. */
  function InitUsers(st: Store): (st': Store)
    ensures forall a :: GetUser(st', a).None?
    ensures st'.stakingToken == st.stakingToken
    ensures st'.rewardMultiplier == st.rewardMultiplier
  {
    st.(users := map[])
  }

  /** `Users::get`: the stored record, if any. */
  function GetUser(st: Store, account: AccountHash): (r: Option<UserInfo>)
    ensures r.Some? <==> account in st.users
    ensures r.Some? ==> r.value == st.users[account]
  {
    if account in st.users then Some(st.users[account]) else None
  }

  /** `Users::set`: overwrites one account's record and nothing else. */
  function SetUser(st: Store, account: AccountHash, info: UserInfo): (st': Store)
    ensures GetUser(st', account) == Some(info)
    ensures forall b :: b != account ==> GetUser(st', b) == GetUser(st, b)
    ensures st'.stakingToken == st.stakingToken
    ensures st'.rewardMultiplier == st.rewardMultiplier
  {
    st.(users := st.users[account := info])
  }

  /**
   `Staking::user_info`: the stored record, or the default record for an
   account that has none. Reading never fails.
   */
  function UserInfoOf(st: Store, account: AccountHash): (r: UserInfo)
    ensures GetUser(st, account).None? ==> r == DefaultUserInfo()
    ensures GetUser(st, account).Some? ==> r == GetUser(st, account).value
  {
    GetUser(st, account).GetOr(DefaultUserInfo())
  }

  /** `set_staking_token` */
  function SetStakingToken(st: Store, token: ContractHash): (st': Store)
    ensures GetStakingToken(st') == Ok(token)
    ensures st'.users == st.users
    ensures st'.rewardMultiplier == st.rewardMultiplier
  {
    st.(stakingToken := Some(token))
  }

  /** `get_staking_token`: aborts when the key was never stored. */
  function GetStakingToken(st: Store): (r: Result<ContractHash>)
    ensures st.stakingToken.None? <==> r == Err(MissingKey)
    ensures st.stakingToken.Some? ==> r == Ok(st.stakingToken.value)
  {
    match st.stakingToken
    case Some(t) => Ok(t)
    case None => Err(MissingKey)
  }

  /** `set_reward_multiplier` */
  function SetRewardMultiplier(st: Store, multiplier: U256): (st': Store)
    ensures GetRewardMultiplier(st') == Ok(multiplier)
    ensures st'.users == st.users
    ensures st'.stakingToken == st.stakingToken
  {
    st.(rewardMultiplier := Some(multiplier))
  }

  /** `get_reward_multiplier`: aborts when the key was never stored. */
  function GetRewardMultiplier(st: Store): (r: Result<U256>)
    ensures st.rewardMultiplier.None? <==> r == Err(MissingKey)
    ensures st.rewardMultiplier.Some? ==> r == Ok(st.rewardMultiplier.value)
  {
    match st.rewardMultiplier
    case Some(m) => Ok(m)
    case None => Err(MissingKey)
  }

  /** Reading back a record that was just written yields that record. */
  lemma SetThenRead(st: Store, account: AccountHash, other: AccountHash, info: UserInfo)
    ensures UserInfoOf(SetUser(st, account, info), account) == info
    ensures other != account ==> UserInfoOf(SetUser(st, account, info), other) == UserInfoOf(st, other)
  {
  }
}

=== FILE: entry.dfy ===
/**
 The contract's published entry points (`constructor`, `stake`, `unstake`,
 `restake`, `claim`) over the accounting engine, with the reentrancy latch
 that brackets `unstake` and `claim`, and the one-shot `constructor` access
 group.

 The caller identity and block time the runtime supplies are parameters. A
 transaction that reverts leaves the contract exactly as it was: every write,
 the latch included, and every token call is rolled back, so an entry point
 returns either the new contract or the error.
 */
module Entry {
  import opened Types
  import opened Data
  import opened Staking

  /**
   The deployed contract.
   - ledger: storage, reentrancy latch (false at rest) and token-call trace.
   - constructorOpen: whether a uref of the `constructor` group still exists.
   */
  datatype Contract = Contract(ledger: Ledger, constructorOpen: bool)

  /** The contract with its latch set to `latch` and nothing else changed. */
  function WithLatch(c: Contract, latch: bool): (c': Contract)
    ensures c'.ledger.latch == latch
    ensures c'.ledger.store == c.ledger.store && c'.ledger.calls == c.ledger.calls
    ensures c'.constructorOpen == c.constructorOpen
  {
    c.(ledger := c.ledger.(latch := latch))
  }

  /**
   Whether every call from position `from` on in `calls` was issued with the
   latch standing at `latched`.
   */
  predicate IssuedWithLatch(calls: seq<Issued>, from: nat, latched: bool)
  {
    forall i :: from <= i < |calls| ==> calls[i].latched == latched
  }

  /** A transaction's outcome after the runtime rolled back an abort. */
  function Commit(o: Outcome): (r: Result<Ledger>)
    ensures o.Done? <==> r.Ok?
    ensures o.Done? ==> r.value == o.ledger
    ensures o.Aborted? ==> r.error == o.error
  {
    match o
    case Done(l) => Ok(l)
    case Aborted(e, _) => Err(e)
  }

  /**
   `set_reentrancy`. The guard's code is not part of this model; it is
   assumed to fail when the latch is already set and to set it otherwise.
   */
  function SetReentrancy(c: Contract): (r: Result<Contract>)
    ensures c.ledger.latch <==> r == Err(ReentrantCall)
    ensures r.Ok? ==> r.value == WithLatch(c, true)
  {
    if c.ledger.latch then Err(ReentrantCall) else Ok(WithLatch(c, true))
  }

  /** `clear_reentrancy`: lowers the latch. */
  function ClearReentrancy(c: Contract): (c': Contract)
    ensures !c'.ledger.latch
    ensures c'.ledger.store == c.ledger.store && c'.ledger.calls == c.ledger.calls
    ensures c'.constructorOpen == c.constructorOpen
  {
    WithLatch(c, false)
  }

  /**
   `StakingContract::constructor`: initialises the staking parameters, then
   the reentrancy guard (assumed to store a lowered latch). Only a holder of
   the `constructor` group may call it.
   */
  function Constructor(c: Contract, token: ContractHash, multiplier: U256): (r: Result<Contract>)
    ensures !c.constructorOpen <==> r == Err(AccessDenied)
    ensures r.Ok? ==>
      && r.value.ledger.store == Init(c.ledger.store, token, multiplier)
      && r.value.ledger.calls == c.ledger.calls
      && !r.value.ledger.latch
  {
    if !c.constructorOpen then
      Err(AccessDenied)
    else
      var initialised := c.(ledger := c.ledger.(store := Init(c.ledger.store, token, multiplier)));
      Ok(WithLatch(initialised, false))
  }

  /** A contract as `storage::new_contract` creates it: empty storage, constructor group open. */
  function Fresh(): (c: Contract)
    ensures c.constructorOpen && !c.ledger.latch && c.ledger.calls == []
    ensures GetStakingToken(c.ledger.store) == Err(MissingKey)
    ensures GetRewardMultiplier(c.ledger.store) == Err(MissingKey)
  {
    Contract(Ledger(EmptyStore(), false, []), true)
  }

  /**
   The installer `call()`, reduced to what matters here: the constructor runs
   on the fresh contract, then the group's single uref is removed so nobody
   can call the constructor again.
   */
  function Install(token: ContractHash, multiplier: U256): (c: Contract)
    ensures !c.constructorOpen && !c.ledger.latch && c.ledger.calls == []
    ensures GetStakingToken(c.ledger.store) == Ok(token)
    ensures GetRewardMultiplier(c.ledger.store) == Ok(multiplier)
    ensures forall a :: UserInfoOf(c.ledger.store, a) == DefaultUserInfo()
  {
    Constructor(Fresh(), token, multiplier).value.(constructorOpen := false)
  }

  /**
   The `stake` entry point: not guarded by the latch, so its `transfer_from`
   runs with the latch as the caller found it, lowered at rest.
   */
  function EntryStake(f: RewardFormula, c: Contract, env: Env, caller: AccountHash, amount: U256): (r: Result<Contract>)
    ensures r.Ok? <==> Staking.Stake(f, c.ledger, env, caller, amount).Done?
    ensures Staking.Stake(f, c.ledger, env, caller, amount).Aborted? ==>
      r == Err(Staking.Stake(f, c.ledger, env, caller, amount).error)
    ensures r.Ok? ==> r.value == c.(ledger := Staking.Stake(f, c.ledger, env, caller, amount).ledger)
    ensures r.Ok? ==> r.value.ledger.latch == c.ledger.latch
    ensures r.Ok? ==> IssuedWithLatch(r.value.ledger.calls, |c.ledger.calls|, c.ledger.latch)
  {
    var l :- Commit(Staking.Stake(f, c.ledger, env, caller, amount));
    Ok(c.(ledger := l))
  }

  /**
   The `unstake` entry point: set latch, unstake, clear latch. The core
   unstake, and so its `transfer`, runs with the latch raised.
   */
  function EntryUnstake(f: RewardFormula, c: Contract, env: Env, caller: AccountHash, amount: U256): (r: Result<Contract>)
    ensures c.ledger.latch ==> r == Err(ReentrantCall)
    ensures !c.ledger.latch ==> (r.Ok? <==> Staking.Unstake(f, c.ledger.(latch := true), env, caller, amount).Done?)
    ensures !c.ledger.latch && Staking.Unstake(f, c.ledger.(latch := true), env, caller, amount).Aborted? ==>
      r == Err(Staking.Unstake(f, c.ledger.(latch := true), env, caller, amount).error)
    ensures r.Ok? ==>
      r.value == Contract(Staking.Unstake(f, c.ledger.(latch := true), env, caller, amount).ledger.(latch := false),
                          c.constructorOpen)
    ensures r.Ok? ==> |r.value.ledger.calls| > |c.ledger.calls| && IssuedWithLatch(r.value.ledger.calls, |c.ledger.calls|, true)
  {
    var guarded :- SetReentrancy(c);
    var l :- Commit(Staking.Unstake(f, guarded.ledger, env, caller, amount));
    Ok(ClearReentrancy(guarded.(ledger := l)))
  }

  /** The `restake` entry point: not guarded by the latch, and it makes no token call. */
  function EntryRestake(f: RewardFormula, c: Contract, env: Env, caller: AccountHash): (r: Result<Contract>)
    ensures r.Ok? <==> Staking.Restake(f, c.ledger, env, caller).Done?
    ensures Staking.Restake(f, c.ledger, env, caller).Aborted? ==>
      r == Err(Staking.Restake(f, c.ledger, env, caller).error)
    ensures r.Ok? ==> r.value == c.(ledger := Staking.Restake(f, c.ledger, env, caller).ledger)
    ensures r.Ok? ==> r.value.ledger.latch == c.ledger.latch && r.value.ledger.calls == c.ledger.calls
  {
    var l :- Commit(Staking.Restake(f, c.ledger, env, caller));
    Ok(c.(ledger := l))
  }

  /**
   The `claim` entry point: set latch, claim, clear latch. The core claim,
   and so its `mint`, runs with the latch raised.
   */
  function EntryClaim(f: RewardFormula, c: Contract, env: Env, caller: AccountHash): (r: Result<Contract>)
    ensures c.ledger.latch ==> r == Err(ReentrantCall)
    ensures !c.ledger.latch ==> (r.Ok? <==> Staking.Claim(f, c.ledger.(latch := true), env, caller).Done?)
    ensures !c.ledger.latch && Staking.Claim(f, c.ledger.(latch := true), env, caller).Aborted? ==>
      r == Err(Staking.Claim(f, c.ledger.(latch := true), env, caller).error)
    ensures r.Ok? ==>
      r.value == Contract(Staking.Claim(f, c.ledger.(latch := true), env, caller).ledger.(latch := false),
                          c.constructorOpen)
    ensures r.Ok? ==> |r.value.ledger.calls| > |c.ledger.calls| && IssuedWithLatch(r.value.ledger.calls, |c.ledger.calls|, true)
  {
    var guarded :- SetReentrancy(c);
    var l :- Commit(Staking.Claim(f, guarded.ledger, env, caller));
    Ok(ClearReentrancy(guarded.(ledger := l)))
  }

  /** A request to one of the entry points, with its named arguments. */
  datatype Request =
    | ConstructorReq(token: ContractHash, multiplier: U256)
    | StakeReq(amount: U256)
    | UnstakeReq(amount: U256)
    | RestakeReq
    | ClaimReq

  /** One transaction: who calls, when, and what. */
  datatype Tx = Tx(caller: AccountHash, env: Env, req: Request)

  /** Routes a transaction to its entry point. */
  function Dispatch(f: RewardFormula, c: Contract, tx: Tx): Result<Contract>
  {
    match tx.req
    case ConstructorReq(t, m) => Constructor(c, t, m)
    case StakeReq(x) => EntryStake(f, c, tx.env, tx.caller, x)
    case UnstakeReq(x) => EntryUnstake(f, c, tx.env, tx.caller, x)
    case RestakeReq => EntryRestake(f, c, tx.env, tx.caller)
    case ClaimReq => EntryClaim(f, c, tx.env, tx.caller)
  }

  /** The contract after one transaction: its result, or the old contract if it reverted. */
  function Apply(f: RewardFormula, c: Contract, tx: Tx): Contract
  {
    match Dispatch(f, c, tx)
    case Ok(c') => c'
    case Err(_) => c
  }

  /** The contract after a sequence of transactions, each committed or rolled back. */
  function Run(f: RewardFormula, c: Contract, txs: seq<Tx>): Contract
    decreases |txs|
  {
    if |txs| == 0 then c else Run(f, Apply(f, c, txs[0]), txs[1..])
  }
}

=== FILE: entry_props.dfy ===
/**
 Properties of the entry-point layer: the reentrancy latch discipline, the
 constructor running once, and what a whole sequence of transactions can and
 cannot do to an account.
 */
module EntryProps {
  import opened Types
  import opened Data
  import opened Staking
  import opened Entry
  import opened StakingProps

  /**
   The guard rejects a nested `unstake` or `claim` exactly when the latch is
   raised: a call back from the token contract is stopped while a guarded
   entry point is in flight, and not while `stake` or `restake` is.
   */
  lemma NestedGuardedCallsRejected(f: RewardFormula, c: Contract, env: Env, caller: AccountHash, amount: U256)
    ensures EntryUnstake(f, c, env, caller, amount) == Err(ReentrantCall) <==> c.ledger.latch
    ensures EntryClaim(f, c, env, caller) == Err(ReentrantCall) <==> c.ledger.latch
  {
  }

  /**
   `stake` and `restake` neither read nor write the latch: whether they commit
   and what they store is the same whether it is set or not.
   */
  lemma UnguardedEntriesIgnoreLatch(f: RewardFormula, c: Contract, env: Env, caller: AccountHash, amount: U256, latch: bool)
    ensures EntryStake(f, WithLatch(c, latch), env, caller, amount).Ok? <==> EntryStake(f, c, env, caller, amount).Ok?
    ensures EntryStake(f, c, env, caller, amount).Ok? ==>
      EntryStake(f, WithLatch(c, latch), env, caller, amount).value.ledger.store
      == EntryStake(f, c, env, caller, amount).value.ledger.store
    ensures EntryRestake(f, WithLatch(c, latch), env, caller)
         == ResultWithLatch(EntryRestake(f, c, env, caller), latch)
  {
  }

  /**
   The published `unstake` fails with InsufficientAmount, the contract's one
   user error (code 1), exactly when the amount exceeds the caller's
   principal, provided the latch is at rest and the reward accrual itself
   does not abort.
   */
  lemma EntryUnstakeInsufficientAmount(f: RewardFormula, c: Contract, env: Env, caller: AccountHash, amount: U256)
    requires !c.ledger.latch
    requires Accrued(f, c.ledger.store, caller, env.now).Ok?
    ensures EntryUnstake(f, c, env, caller, amount) == Err(InsufficientAmount)
        <==> amount > UserInfoOf(c.ledger.store, caller).amount
  {
  }

  /** A result with its latch replaced. */
  function ResultWithLatch(r: Result<Contract>, latch: bool): Result<Contract>
  {
    match r
    case Ok(c) => Ok(WithLatch(c, latch))
    case Err(e) => Err(e)
  }

  /**
   Whether each call in the trace was issued with the latch raised exactly
   when it is a `transfer` or a `mint`, the calls the guarded entry points
   make; a `transfer_from`, made by `stake`, runs with the latch lowered.
   */
  predicate GuardedCallsLatched(calls: seq<Issued>)
  {
    forall i :: 0 <= i < |calls| ==> (calls[i].latched <==> !calls[i].call.TransferFrom?)
  }

  /** One transaction from a contract at rest keeps `GuardedCallsLatched`. */
  lemma ApplyKeepsGuardedCallsLatched(f: RewardFormula, c: Contract, tx: Tx)
    requires !c.ledger.latch
    requires GuardedCallsLatched(c.ledger.calls)
    ensures GuardedCallsLatched(Apply(f, c, tx).ledger.calls)
  {
  }

  /**
   Over any sequence of transactions from a contract at rest, every
   `transfer` and `mint` is issued with the latch raised and every
   `transfer_from` with it lowered.
   */
  lemma {:induction false} RunKeepsGuardedCallsLatched(f: RewardFormula, c: Contract, txs: seq<Tx>)
    requires !c.ledger.latch
    requires GuardedCallsLatched(c.ledger.calls)
    ensures GuardedCallsLatched(Run(f, c, txs).ledger.calls)
    decreases |txs|
  {
    if |txs| > 0 {
      ApplyKeepsLatchAtRest(f, c, txs[0]);
      ApplyKeepsGuardedCallsLatched(f, c, txs[0]);
      RunKeepsGuardedCallsLatched(f, Apply(f, c, txs[0]), txs[1..]);
    }
  }

  /**
   In the installed contract, whatever transactions ran: each `transfer` of
   an unstake and each `mint` of a claim was issued while the latch was
   raised, so a call back from the token into `unstake` or `claim` at that
   moment is rejected; each `transfer_from` of a stake was issued with the
   latch lowered, so such a call back is not stopped by the guard.
   */
  lemma InstalledTokenCallsLatch(f: RewardFormula, token: ContractHash, multiplier: U256, txs: seq<Tx>,
                                 i: nat, d: Contract, env: Env, caller: AccountHash, amount: U256)
    requires i < |Run(f, Install(token, multiplier), txs).ledger.calls|
    requires d.ledger.latch == Run(f, Install(token, multiplier), txs).ledger.calls[i].latched
    ensures
      var issued := Run(f, Install(token, multiplier), txs).ledger.calls[i];
      && (issued.latched <==> !issued.call.TransferFrom?)
      && (EntryUnstake(f, d, env, caller, amount) == Err(ReentrantCall) <==> !issued.call.TransferFrom?)
      && (EntryClaim(f, d, env, caller) == Err(ReentrantCall) <==> !issued.call.TransferFrom?)
  {
    RunKeepsGuardedCallsLatched(f, Install(token, multiplier), txs);
    NestedGuardedCallsRejected(f, d, env, caller, amount);
  }

  /**
   Entry points pass the caller as the account and the amount argument
   unchanged. This gathers in one place what the contracts of the four entry
   functions already state.
   */
  lemma EntriesActForCaller(f: RewardFormula, c: Contract, env: Env, caller: AccountHash, amount: U256)
    requires !c.ledger.latch
    ensures EntryStake(f, c, env, caller, amount).Ok? ==>
      EntryStake(f, c, env, caller, amount).value.ledger == Staking.Stake(f, c.ledger, env, caller, amount).ledger
    ensures EntryUnstake(f, c, env, caller, amount).Ok? ==>
      EntryUnstake(f, c, env, caller, amount).value.ledger
      == Staking.Unstake(f, c.ledger.(latch := true), env, caller, amount).ledger.(latch := false)
    ensures EntryRestake(f, c, env, caller).Ok? ==>
      EntryRestake(f, c, env, caller).value.ledger == Staking.Restake(f, c.ledger, env, caller).ledger
    ensures EntryClaim(f, c, env, caller).Ok? ==>
      EntryClaim(f, c, env, caller).value.ledger
      == Staking.Claim(f, c.ledger.(latch := true), env, caller).ledger.(latch := false)
  {
  }

  /** One committed or reverted transaction leaves a lowered latch lowered. */
  lemma ApplyKeepsLatchAtRest(f: RewardFormula, c: Contract, tx: Tx)
    requires !c.ledger.latch
    ensures !Apply(f, c, tx).ledger.latch
  {
  }

  /**
   Over any sequence of transactions, committed or reverted, a lowered latch
   stays lowered between transactions: a guarded call that fails is rolled
   back together with the latch it set, so no account is ever locked out.
   */
  lemma {:induction false} RunKeepsLatchAtRest(f: RewardFormula, c: Contract, txs: seq<Tx>)
    requires !c.ledger.latch
    ensures !Run(f, c, txs).ledger.latch
    decreases |txs|
  {
    if |txs| > 0 {
      ApplyKeepsLatchAtRest(f, c, txs[0]);
      RunKeepsLatchAtRest(f, Apply(f, c, txs[0]), txs[1..]);
    }
  }

  /**
   Once the constructor group is closed, one transaction cannot reopen it and
   cannot change the staking token or the reward multiplier.
   */
  lemma ApplyKeepsConfiguration(f: RewardFormula, c: Contract, tx: Tx)
    requires !c.constructorOpen
    ensures !Apply(f, c, tx).constructorOpen
    ensures Apply(f, c, tx).ledger.store.stakingToken == c.ledger.store.stakingToken
    ensures Apply(f, c, tx).ledger.store.rewardMultiplier == c.ledger.store.rewardMultiplier
  {
    var amount := if tx.req.StakeReq? || tx.req.UnstakeReq? then tx.req.amount else 0;
    OperationsKeepParameters(f, c.ledger, tx.env, tx.caller, amount);
    OperationsKeepParameters(f, c.ledger.(latch := true), tx.env, tx.caller, amount);
  }

  /** Once the constructor group is closed, no sequence of transactions reopens it or changes the parameters. */
  lemma {:induction false} RunKeepsConfiguration(f: RewardFormula, c: Contract, txs: seq<Tx>)
    requires !c.constructorOpen
    ensures !Run(f, c, txs).constructorOpen
    ensures Run(f, c, txs).ledger.store.stakingToken == c.ledger.store.stakingToken
    ensures Run(f, c, txs).ledger.store.rewardMultiplier == c.ledger.store.rewardMultiplier
    decreases |txs|
  {
    if |txs| > 0 {
      ApplyKeepsConfiguration(f, c, txs[0]);
      RunKeepsConfiguration(f, Apply(f, c, txs[0]), txs[1..]);
    }
  }

  /**
   The constructor runs once: after installation, whatever transactions
   follow, calling the constructor again is denied and the parameters it set
   are the ones in force.
   */
  lemma ConstructorRunsOnce(f: RewardFormula, token: ContractHash, multiplier: U256,
                            txs: seq<Tx>, caller: AccountHash, env: Env, token': ContractHash, multiplier': U256)
    ensures Dispatch(f, Run(f, Install(token, multiplier), txs), Tx(caller, env, ConstructorReq(token', multiplier')))
         == Err(AccessDenied)
    ensures GetStakingToken(Run(f, Install(token, multiplier), txs).ledger.store) == Ok(token)
    ensures GetRewardMultiplier(Run(f, Install(token, multiplier), txs).ledger.store) == Ok(multiplier)
  {
    RunKeepsConfiguration(f, Install(token, multiplier), txs);
  }

  /** One transaction by someone else leaves an account's record as it was. */
  lemma ApplyLeavesOthersAlone(f: RewardFormula, c: Contract, tx: Tx, other: AccountHash)
    requires !c.constructorOpen
    requires tx.caller != other
    ensures GetUser(Apply(f, c, tx).ledger.store, other) == GetUser(c.ledger.store, other)
  {
    var amount := if tx.req.StakeReq? || tx.req.UnstakeReq? then tx.req.amount else 0;
    OperationsTouchOnlyCaller(f, c.ledger, tx.env, tx.caller, amount, other);
    OperationsTouchOnlyCaller(f, c.ledger.(latch := true), tx.env, tx.caller, amount, other);
  }

  /** No sequence of transactions by other callers changes an account's record. */
  lemma {:induction false} RunLeavesOthersAlone(f: RewardFormula, c: Contract, txs: seq<Tx>, other: AccountHash)
    requires !c.constructorOpen
    requires forall i :: 0 <= i < |txs| ==> txs[i].caller != other
    ensures GetUser(Run(f, c, txs).ledger.store, other) == GetUser(c.ledger.store, other)
    decreases |txs|
  {
    if |txs| > 0 {
      ApplyLeavesOthersAlone(f, c, txs[0], other);
      ApplyKeepsConfiguration(f, c, txs[0]);
      RunLeavesOthersAlone(f, Apply(f, c, txs[0]), txs[1..], other);
    }
  }

  /**
   A transaction lowers the caller's principal only by committing an unstake,
   and then by exactly the requested amount; no transaction lowers anyone
   else's.
   */
  lemma PrincipalDecreasesOnlyByUnstake(f: RewardFormula, c: Contract, tx: Tx, who: AccountHash)
    requires !c.constructorOpen
    ensures tx.req.UnstakeReq? && tx.caller == who && Dispatch(f, c, tx).Ok? ==>
      UserInfoOf(Apply(f, c, tx).ledger.store, who).amount == UserInfoOf(c.ledger.store, who).amount - tx.req.amount
    ensures !(tx.req.UnstakeReq? && tx.caller == who && Dispatch(f, c, tx).Ok?) ==>
      UserInfoOf(Apply(f, c, tx).ledger.store, who).amount >= UserInfoOf(c.ledger.store, who).amount
  {
    if tx.caller != who {
      ApplyLeavesOthersAlone(f, c, tx, who);
    }
  }

  /** Whether `txs` holds an unstake request from `who`. */
  predicate UnstakesBy(txs: seq<Tx>, who: AccountHash)
  {
    exists i :: 0 <= i < |txs| && txs[i].caller == who && txs[i].req.UnstakeReq?
  }

  /** Without an unstake of its own, an account's principal never goes down. */
  lemma {:induction false} PrincipalMonotoneWithoutUnstake(f: RewardFormula, c: Contract, txs: seq<Tx>, who: AccountHash)
    requires !c.constructorOpen
    requires !UnstakesBy(txs, who)
    ensures UserInfoOf(Run(f, c, txs).ledger.store, who).amount >= UserInfoOf(c.ledger.store, who).amount
    decreases |txs|
  {
    if |txs| > 0 {
      PrincipalDecreasesOnlyByUnstake(f, c, txs[0], who);
      ApplyKeepsConfiguration(f, c, txs[0]);
      assert !UnstakesBy(txs[1..], who) by {
        forall i | 0 <= i < |txs[1..]|
          ensures !(txs[1..][i].caller == who && txs[1..][i].req.UnstakeReq?)
        {
          assert txs[1..][i] == txs[i + 1];
        }
      }
      PrincipalMonotoneWithoutUnstake(f, Apply(f, c, txs[0]), txs[1..], who);
    }
  }

  /**
   Account A stakes 50 right after installation, then asks to unstake 60 at
   the same block time: the request fails with InsufficientAmount and the
   principal stays 50.
   */
  lemma OverUnstakeScenario(f: RewardFormula, token: ContractHash, a: AccountHash, env: Env)
    ensures EntryStake(f, Install(token, 2), env, a, 50).Ok?
    ensures
      var c1 := EntryStake(f, Install(token, 2), env, a, 50).value;
      && UserInfoOf(c1.ledger.store, a).amount == 50
      && EntryUnstake(f, c1, env, a, 60) == Err(InsufficientAmount)
  {
    var c0 := Install(token, 2);
    assert UserInfoOf(c0.ledger.store, a) == DefaultUserInfo();
    var c1 := EntryStake(f, c0, env, a, 50).value;
    SameTimeAccruesNothing(f, c1.ledger.store, a, env.now);
  }

  /**
   Account A stakes 100 at block time 1000 with multiplier 2 and claims at
   1010. With the elapsed-time formula it is minted 20; with the formula as
   written, 2 * (2^64 - 10). Either way `available` is zero afterwards and
   the principal is still 100.
   */
  lemma StakeThenClaimScenario(f: RewardFormula, token: ContractHash, a: AccountHash, package: PackageHash)
    ensures EntryStake(f, Install(token, 2), Env(1000, package), a, 100).Ok?
    ensures
      var c1 := EntryStake(f, Install(token, 2), Env(1000, package), a, 100).value;
      var reward := if f == Elapsed then 20 else 2 * (U64_LIMIT - 10);
      && EntryClaim(f, c1, Env(1010, package), a).Ok?
      && EntryClaim(f, c1, Env(1010, package), a).value.ledger.calls
         == [ Issued(TransferFrom(token, AccountKey(a), PackageKey(package), 100), false)
            , Issued(Mint(token, AccountKey(a), reward), true) ]
      && UserInfoOf(EntryClaim(f, c1, Env(1010, package), a).value.ledger.store, a) == UserInfo(100, 0, 1010)
  {
    var c0 := Install(token, 2);
    assert UserInfoOf(c0.ledger.store, a) == DefaultUserInfo();
    var c1 := EntryStake(f, c0, Env(1000, package), a, 100).value;
    assert UserInfoOf(c1.ledger.store, a) == UserInfo(100, 0, 1000);
    InvertedRewardCounterexample(c1.ledger.store, a);
  }

  /**
   Account A stakes 100 at block time 1000 and restakes at 1010: the principal
   becomes 100 plus the reward R accrued in between, `available` is zero, and
   no token call beyond the stake's is made.
   */
  lemma StakeThenRestakeScenario(f: RewardFormula, token: ContractHash, a: AccountHash, package: PackageHash)
    ensures EntryStake(f, Install(token, 2), Env(1000, package), a, 100).Ok?
    ensures
      var c1 := EntryStake(f, Install(token, 2), Env(1000, package), a, 100).value;
      var reward := if f == Elapsed then 20 else 2 * (U64_LIMIT - 10);
      && EntryRestake(f, c1, Env(1010, package), a).Ok?
      && EntryRestake(f, c1, Env(1010, package), a).value.ledger.calls == c1.ledger.calls
      && UserInfoOf(EntryRestake(f, c1, Env(1010, package), a).value.ledger.store, a) == UserInfo(100 + reward, 0, 1010)
  {
    var c0 := Install(token, 2);
    assert UserInfoOf(c0.ledger.store, a) == DefaultUserInfo();
    var c1 := EntryStake(f, c0, Env(1000, package), a, 100).value;
    assert UserInfoOf(c1.ledger.store, a) == UserInfo(100, 0, 1000);
    InvertedRewardCounterexample(c1.ledger.store, a);
  }
}

=== FILE: staking.dfy ===
/**
 The accounting engine of the `Staking` trait: reward accrual, the shared
 `update_available` step and the four operations stake, unstake, claim and
 restake.

 Block time and the contract's own package hash come from the runtime and
 are explicit inputs (`Env`). Calls into the staking token are not executed:
 each one is appended to a trace, together with the state of the reentrancy
 latch at the moment it was issued. An operation either
 finishes (`Done`) or aborts (`Aborted`), in which case it reports the token
 calls it had already issued; the runtime then rolls all of them back
 together with every storage write.
 */
module Staking {
  import opened Types
  import opened Data

  /** A call the contract makes into the staking token contract. */
  datatype TokenCall =
    | TransferFrom(token: ContractHash, owner: Key, recipient: Key, amount: U256)
    | Transfer(token: ContractHash, recipient: Key, amount: U256)
    | Mint(token: ContractHash, to: Key, amount: U256)

  /**
   A token call as issued: while it runs, control is in the token contract,
   which may call back into this one and then finds the latch as `latched`.
   */
  datatype Issued = Issued(call: TokenCall, latched: bool)

  /**
   The contract's storage together with the token calls made so far.
   `latch` is the reentrancy guard's flag, kept in the same contract storage:
   the engine neither reads nor writes it, and every call it issues is
   recorded with it.
   */
  datatype Ledger = Ledger(store: Store, latch: bool, calls: seq<Issued>)

  /** What the runtime supplies to one call: the block time and the contract's package hash. */
  datatype Env = Env(now: Time, package: PackageHash)

  datatype Outcome =
    | Done(ledger: Ledger)
    | Aborted(error: Error, issued: seq<Issued>)

  /**
   Which interval the reward is computed over.
   - InvertedAsWritten: the source's `last_reward_time - current_block_time`
     on u64, taken with wrap-around (a build without overflow checks).
   - Elapsed: the evidently intended `current_block_time - last_reward_time`,
     aborting if the clock went backwards.
   */
  datatype RewardFormula = InvertedAsWritten | Elapsed

  /** The one subtraction the reward formula hinges on. */
  function RewardInterval(f: RewardFormula, last: Time, now: Time): (r: Result<U64>)
    ensures f == InvertedAsWritten && now <= last ==> r == Ok(last - now)
    ensures f == InvertedAsWritten && last < now ==> r == Ok(U64_LIMIT - (now - last))
    ensures f == Elapsed ==> (r.Ok? <==> last <= now)
    ensures f == Elapsed && last <= now ==> r == Ok(now - last)
    ensures r.Err? ==> r.error == ArithmeticOverflow
  {
    match f
    case InvertedAsWritten => Ok(WrappingSub64(last, now))
    case Elapsed => if last <= now then Ok(now - last) else Err(ArithmeticOverflow)
  }

  /**
   `_get_rewards`: the reward pending for `account` at time `now`. An account
   that never accrued gets nothing, and the multiplier is not even read for it;
   otherwise the reward is `1 * interval * multiplier` with checked products.
   */
  function GetRewards(f: RewardFormula, st: Store, account: AccountHash, now: Time): (r: Result<U256>)
    ensures UserInfoOf(st, account).lastRewardTime == 0 ==> r == Ok(0)
    ensures UserInfoOf(st, account).lastRewardTime != 0 && st.rewardMultiplier.None? ==> r == Err(MissingKey)
    ensures UserInfoOf(st, account).lastRewardTime == now && st.rewardMultiplier.Some? ==> r == Ok(0)
    ensures UserInfoOf(st, account).lastRewardTime != 0 && st.rewardMultiplier.Some? ==>
      var interval := RewardInterval(f, UserInfoOf(st, account).lastRewardTime, now);
      var m := st.rewardMultiplier.value;
      && (interval.Err? ==> r == Err(ArithmeticOverflow))
      && (interval.Ok? && interval.value * m < U256_LIMIT ==> r == Ok(interval.value * m))
      && (interval.Ok? && interval.value * m >= U256_LIMIT ==> r == Err(ArithmeticOverflow))
  {
    var last := UserInfoOf(st, account).lastRewardTime;
    if last == 0 then
      Ok(0)
    else
      var m :- GetRewardMultiplier(st);
      var interval :- RewardInterval(f, last, now);
      match CheckedMul(1, interval)
      case Err(e) => Err(e)
      case Ok(scaled) => CheckedMul(scaled, m)
  }

  /** The account's `available` after accrual: stored reward plus pending reward, checked. */
  function Accrued(f: RewardFormula, st: Store, account: AccountHash, now: Time): (r: Result<U256>)
    ensures GetRewards(f, st, account, now).Err? ==> r == Err(GetRewards(f, st, account, now).error)
    ensures r.Ok? <==>
      GetRewards(f, st, account, now).Ok?
      && UserInfoOf(st, account).available + GetRewards(f, st, account, now).value < U256_LIMIT
    ensures r.Ok? ==> r.value == UserInfoOf(st, account).available + GetRewards(f, st, account, now).value
    ensures r.Err? ==> r.error in {MissingKey, ArithmeticOverflow}
  {
    var reward :- GetRewards(f, st, account, now);
    CheckedAdd(UserInfoOf(st, account).available, reward)
  }

  /**
   `update_available`: accrues the pending reward into `available`, adds
   `amount` to the principal (`isStake`) or takes it away, failing with
   InsufficientAmount when it exceeds the principal, and stamps the record
   with the current block time. The record is returned, not stored.
   */
  function UpdateAvailable(f: RewardFormula, st: Store, account: AccountHash, now: Time,
                           amount: U256, isStake: bool): (r: Result<UserInfo>)
    ensures Accrued(f, st, account, now).Err? ==> r == Err(Accrued(f, st, account, now).error)
    ensures r.Ok? ==> r.value.lastRewardTime == now
    ensures r.Ok? ==> Accrued(f, st, account, now) == Ok(r.value.available)
    ensures Accrued(f, st, account, now).Ok? && isStake ==>
      var before := UserInfoOf(st, account);
      && (r.Ok? <==> before.amount + amount < U256_LIMIT)
      && (r.Ok? ==> r.value.amount == before.amount + amount)
      && (r.Err? ==> r.error == ArithmeticOverflow)
    ensures Accrued(f, st, account, now).Ok? && !isStake ==>
      var before := UserInfoOf(st, account);
      && (r == Err(InsufficientAmount) <==> amount > before.amount)
      && (r.Ok? <==> amount <= before.amount)
      && (r.Ok? ==> r.value.amount == before.amount - amount)
  {
    var info := UserInfoOf(st, account);
    var available :- Accrued(f, st, account, now);
    var amount' :-
      if isStake then CheckedAdd(info.amount, amount)
      else if info.amount < amount then Err(InsufficientAmount)
      else CheckedSub(info.amount, amount);
    Ok(UserInfo(amount', available, now))
  }

  /** Writes `info` as `account`'s record and appends `calls` to the trace. */
  function Persist(l: Ledger, account: AccountHash, info: UserInfo, calls: seq<Issued>): (l': Ledger)
    ensures UserInfoOf(l'.store, account) == info
    ensures l'.latch == l.latch
    ensures forall b :: b != account ==> GetUser(l'.store, b) == GetUser(l.store, b)
    ensures l'.store.stakingToken == l.store.stakingToken
    ensures l'.store.rewardMultiplier == l.store.rewardMultiplier
    ensures |l'.calls| == |l.calls| + |calls| && l'.calls[..|l.calls|] == l.calls && l'.calls[|l.calls|..] == calls
  {
    Ledger(SetUser(l.store, account, info), l.latch, l.calls + calls)
  }

  /**
   `stake`: pulls `amount` from the account into the contract's package with
   `transfer_from` FIRST, then computes and stores the new record.
   */
  function Stake(f: RewardFormula, l: Ledger, env: Env, account: AccountHash, amount: U256): (o: Outcome)
    ensures o.Aborted? ==> o.error in {MissingKey, ArithmeticOverflow}
    ensures o.Aborted? && l.store.stakingToken.None? ==> o.issued == []
    ensures o.Aborted? && l.store.stakingToken.Some? ==>
      o.issued == [Issued(TransferFrom(l.store.stakingToken.value, AccountKey(account), PackageKey(env.package), amount), l.latch)]
    ensures o.Done? <==>
      l.store.stakingToken.Some? && UpdateAvailable(f, l.store, account, env.now, amount, true).Ok?
    ensures o.Done? ==>
      o.ledger == Persist(l, account, UpdateAvailable(f, l.store, account, env.now, amount, true).value,
                          [Issued(TransferFrom(l.store.stakingToken.value, AccountKey(account), PackageKey(env.package), amount), l.latch)])
    ensures o.Done? ==>
      && UserInfoOf(o.ledger.store, account).amount == UserInfoOf(l.store, account).amount + amount
      && UserInfoOf(o.ledger.store, account).lastRewardTime == env.now
  {
    match GetStakingToken(l.store)
    case Err(e) => Aborted(e, [])
    case Ok(token) =>
      var call := Issued(TransferFrom(token, AccountKey(account), PackageKey(env.package), amount), l.latch);
      match UpdateAvailable(f, l.store, account, env.now, amount, true)
      case Err(e) => Aborted(e, [call])
      case Ok(info) => Done(Persist(l, account, info, [call]))
  }

  /**
   `unstake`: computes the new record first, which fails with
   InsufficientAmount when `amount` exceeds the principal, and only then
   sends `amount` back to the account with `transfer` and stores the record.
   */
  function Unstake(f: RewardFormula, l: Ledger, env: Env, account: AccountHash, amount: U256): (o: Outcome)
    ensures o.Aborted? ==> o.issued == [] && o.error in {InsufficientAmount, MissingKey, ArithmeticOverflow}
    ensures Accrued(f, l.store, account, env.now).Ok? ==>
      (o == Aborted(InsufficientAmount, []) <==> amount > UserInfoOf(l.store, account).amount)
    ensures o.Done? <==>
      l.store.stakingToken.Some? && UpdateAvailable(f, l.store, account, env.now, amount, false).Ok?
    ensures o.Done? ==>
      o.ledger == Persist(l, account, UpdateAvailable(f, l.store, account, env.now, amount, false).value,
                          [Issued(Transfer(l.store.stakingToken.value, AccountKey(account), amount), l.latch)])
    ensures o.Done? ==>
      && amount <= UserInfoOf(l.store, account).amount
      && UserInfoOf(o.ledger.store, account).amount == UserInfoOf(l.store, account).amount - amount
  {
    match UpdateAvailable(f, l.store, account, env.now, amount, false)
    case Err(e) => Aborted(e, [])
    case Ok(info) =>
      match GetStakingToken(l.store)
      case Err(e) => Aborted(e, [])
      case Ok(token) => Done(Persist(l, account, info, [Issued(Transfer(token, AccountKey(account), amount), l.latch)]))
  }

  /**
   `claim`: accrues the reward, mints all of `available` to the account and
   stores the record with `available` reset to zero; the principal is left as
   it was.
   */
  function Claim(f: RewardFormula, l: Ledger, env: Env, account: AccountHash): (o: Outcome)
    ensures o.Aborted? ==> o.issued == [] && o.error in {MissingKey, ArithmeticOverflow}
    ensures o.Done? <==> l.store.stakingToken.Some? && Accrued(f, l.store, account, env.now).Ok?
    ensures o.Done? ==>
      && o.ledger.latch == l.latch
      && o.ledger.calls == l.calls + [Issued(Mint(l.store.stakingToken.value, AccountKey(account),
                                                  Accrued(f, l.store, account, env.now).value), l.latch)]
      && UserInfoOf(o.ledger.store, account)
         == UserInfo(UserInfoOf(l.store, account).amount, 0, env.now)
      && (forall b :: b != account ==> GetUser(o.ledger.store, b) == GetUser(l.store, b))
  {
    match UpdateAvailable(f, l.store, account, env.now, 0, true)
    case Err(e) => Aborted(e, [])
    case Ok(info) =>
      match GetStakingToken(l.store)
      case Err(e) => Aborted(e, [])
      case Ok(token) =>
        Done(Persist(l, account, info.(available := 0), [Issued(Mint(token, AccountKey(account), info.available), l.latch)]))
  }

  /**
   `restake`: accrues the reward and folds all of `available` into the
   principal (checked), leaving `available` at zero. No token call is made.
   */
  function Restake(f: RewardFormula, l: Ledger, env: Env, account: AccountHash): (o: Outcome)
    ensures o.Aborted? ==> o.issued == [] && o.error in {MissingKey, ArithmeticOverflow}
    ensures o.Done? <==>
      Accrued(f, l.store, account, env.now).Ok?
      && UserInfoOf(l.store, account).amount + Accrued(f, l.store, account, env.now).value < U256_LIMIT
    ensures o.Done? ==>
      && o.ledger.latch == l.latch
      && o.ledger.calls == l.calls
      && UserInfoOf(o.ledger.store, account).amount
         == UserInfoOf(l.store, account).amount + Accrued(f, l.store, account, env.now).value
      && UserInfoOf(o.ledger.store, account).available == 0
      && UserInfoOf(o.ledger.store, account).lastRewardTime == env.now
      && (forall b :: b != account ==> GetUser(o.ledger.store, b) == GetUser(l.store, b))
  {
    match UpdateAvailable(f, l.store, account, env.now, 0, true)
    case Err(e) => Aborted(e, [])
    case Ok(info) =>
      match CheckedAdd(info.amount, info.available)
      case Err(e) => Aborted(e, [])
      case Ok(amount) => Done(Persist(l, account, UserInfo(amount, 0, info.lastRewardTime), []))
  }

  /**
   `Staking::init`: creates the users dictionary and stores the staking
   token and the reward multiplier, in that order.
   */
  function Init(st: Store, token: ContractHash, multiplier: U256): (st': Store)
    ensures forall a :: UserInfoOf(st', a) == DefaultUserInfo()
    ensures GetStakingToken(st') == Ok(token)
    ensures GetRewardMultiplier(st') == Ok(multiplier)
  {
    SetRewardMultiplier(SetStakingToken(InitUsers(st), token), multiplier)
  }
}

=== FILE: staking_props.dfy ===
/**
 Properties of the accounting engine that relate several operations: no
 double accrual at one block time, stake and unstake undoing each other,
 every operation writing only the caller's record, and the behaviour of the
 reward formula in both directions.
 */
module StakingProps {
  import opened Types
  import opened Data
  import opened Staking

  /**
   The reward ignores the principal: it is `1 * interval * multiplier`,
   whatever amount is staked, so two records that differ only in principal
   accrue the same reward. In particular a stake of 0 starts the clock and
   then earns as much as any other stake.
   */
  lemma RewardIgnoresPrincipal(f: RewardFormula, st: Store, account: AccountHash, now: Time, principal: U256)
    ensures
      var st' := SetUser(st, account, UserInfoOf(st, account).(amount := principal));
      GetRewards(f, st', account, now) == GetRewards(f, st, account, now)
  {
  }

  /**
   Accrual at the block time of the account's last accrual adds nothing,
   whichever direction the interval is taken in.
   */
  lemma SameTimeAccruesNothing(f: RewardFormula, st: Store, account: AccountHash, now: Time)
    requires UserInfoOf(st, account).lastRewardTime == now
    requires st.rewardMultiplier.Some?
    ensures GetRewards(f, st, account, now) == Ok(0)
    ensures Accrued(f, st, account, now) == Ok(UserInfoOf(st, account).available)
  {
  }

  /** After any operation the caller's record carries the current block time. */
  lemma OperationsStampNow(f: RewardFormula, l: Ledger, env: Env, account: AccountHash, amount: U256)
    ensures Stake(f, l, env, account, amount).Done? ==>
      UserInfoOf(Stake(f, l, env, account, amount).ledger.store, account).lastRewardTime == env.now
    ensures Unstake(f, l, env, account, amount).Done? ==>
      UserInfoOf(Unstake(f, l, env, account, amount).ledger.store, account).lastRewardTime == env.now
    ensures Claim(f, l, env, account).Done? ==>
      UserInfoOf(Claim(f, l, env, account).ledger.store, account).lastRewardTime == env.now
    ensures Restake(f, l, env, account).Done? ==>
      UserInfoOf(Restake(f, l, env, account).ledger.store, account).lastRewardTime == env.now
  {
  }

  /** Every operation writes the caller's record and no other account's. */
  lemma OperationsTouchOnlyCaller(f: RewardFormula, l: Ledger, env: Env, account: AccountHash,
                                  amount: U256, other: AccountHash)
    requires other != account
    ensures Stake(f, l, env, account, amount).Done? ==>
      GetUser(Stake(f, l, env, account, amount).ledger.store, other) == GetUser(l.store, other)
    ensures Unstake(f, l, env, account, amount).Done? ==>
      GetUser(Unstake(f, l, env, account, amount).ledger.store, other) == GetUser(l.store, other)
    ensures Claim(f, l, env, account).Done? ==>
      GetUser(Claim(f, l, env, account).ledger.store, other) == GetUser(l.store, other)
    ensures Restake(f, l, env, account).Done? ==>
      GetUser(Restake(f, l, env, account).ledger.store, other) == GetUser(l.store, other)
  {
  }

  /** No operation changes the staking token or the reward multiplier. */
  lemma OperationsKeepParameters(f: RewardFormula, l: Ledger, env: Env, account: AccountHash, amount: U256)
    ensures Stake(f, l, env, account, amount).Done? ==>
      && Stake(f, l, env, account, amount).ledger.store.stakingToken == l.store.stakingToken
      && Stake(f, l, env, account, amount).ledger.store.rewardMultiplier == l.store.rewardMultiplier
    ensures Unstake(f, l, env, account, amount).Done? ==>
      && Unstake(f, l, env, account, amount).ledger.store.stakingToken == l.store.stakingToken
      && Unstake(f, l, env, account, amount).ledger.store.rewardMultiplier == l.store.rewardMultiplier
    ensures Claim(f, l, env, account).Done? ==>
      && Claim(f, l, env, account).ledger.store.stakingToken == l.store.stakingToken
      && Claim(f, l, env, account).ledger.store.rewardMultiplier == l.store.rewardMultiplier
    ensures Restake(f, l, env, account).Done? ==>
      && Restake(f, l, env, account).ledger.store.stakingToken == l.store.stakingToken
      && Restake(f, l, env, account).ledger.store.rewardMultiplier == l.store.rewardMultiplier
  {
  }

  /**
   Restaking twice at the same block time is the same as restaking once: the
   second call finds nothing to accrue and nothing available to fold in.
   */
  lemma RestakeIdempotentAtSameTime(f: RewardFormula, l: Ledger, env: Env, account: AccountHash)
    requires l.store.rewardMultiplier.Some?
    requires Restake(f, l, env, account).Done?
    ensures Restake(f, Restake(f, l, env, account).ledger, env, account) == Restake(f, l, env, account)
  {
    var l1 := Restake(f, l, env, account).ledger;
    var info := UserInfoOf(l1.store, account);
    SameTimeAccruesNothing(f, l1.store, account, env.now);
    assert l1.store.users[account := info] == l1.store.users;
  }

  /**
   A second claim at the same block time mints zero and leaves every record
   as the first claim left it.
   */
  lemma SecondClaimMintsNothing(f: RewardFormula, l: Ledger, env: Env, account: AccountHash)
    requires l.store.rewardMultiplier.Some?
    requires Claim(f, l, env, account).Done?
    ensures Claim(f, Claim(f, l, env, account).ledger, env, account).Done?
    ensures Claim(f, Claim(f, l, env, account).ledger, env, account).ledger.store
         == Claim(f, l, env, account).ledger.store
    ensures Claim(f, Claim(f, l, env, account).ledger, env, account).ledger.calls
         == Claim(f, l, env, account).ledger.calls + [Issued(Mint(l.store.stakingToken.value, AccountKey(account), 0), l.latch)]
  {
    var l1 := Claim(f, l, env, account).ledger;
    var info := UserInfoOf(l1.store, account);
    SameTimeAccruesNothing(f, l1.store, account, env.now);
    assert l1.store.users[account := info] == l1.store.users;
  }

  /**
   Unstaking, at the same block time, what was just staked gives the
   principal back exactly, keeps the reward accrued by the stake, and sends
   the same amount back that was pulled in.
   */
  lemma StakeThenUnstakeRestoresPrincipal(f: RewardFormula, l: Ledger, env: Env, account: AccountHash, amount: U256)
    requires l.store.rewardMultiplier.Some?
    requires Stake(f, l, env, account, amount).Done?
    ensures Unstake(f, Stake(f, l, env, account, amount).ledger, env, account, amount).Done?
    ensures
      var l2 := Unstake(f, Stake(f, l, env, account, amount).ledger, env, account, amount).ledger;
      && UserInfoOf(l2.store, account).amount == UserInfoOf(l.store, account).amount
      && UserInfoOf(l2.store, account).available == Accrued(f, l.store, account, env.now).value
      && l2.calls == l.calls + [ Issued(TransferFrom(l.store.stakingToken.value, AccountKey(account), PackageKey(env.package), amount), l.latch)
                               , Issued(Transfer(l.store.stakingToken.value, AccountKey(account), amount), l.latch) ]
  {
    var l1 := Stake(f, l, env, account, amount).ledger;
    SameTimeAccruesNothing(f, l1.store, account, env.now);
    assert UpdateAvailable(f, l1.store, account, env.now, amount, false).Ok?;
  }

  /**
   Unstaking more than the principal fails with InsufficientAmount before any
   token call, whatever the reward accrual would have given, as long as the
   accrual itself does not overflow; the account's record is untouched.
   */
  lemma OverUnstakeRejected(f: RewardFormula, l: Ledger, env: Env, account: AccountHash, amount: U256)
    requires Accrued(f, l.store, account, env.now).Ok?
    requires amount > UserInfoOf(l.store, account).amount
    ensures Unstake(f, l, env, account, amount) == Aborted(InsufficientAmount, [])
  {
  }

  /**
   The reward the source computes, as written: for an account that accrued at
   `last` and acts again at a LATER block time `now`, the u64 difference
   `last - now` wraps to 2^64 - (now - last), so the reward is that huge
   interval times the multiplier (or an overflow abort), not the elapsed time.
   */
  lemma InvertedRewardWraps(st: Store, account: AccountHash, now: Time)
    requires 0 < UserInfoOf(st, account).lastRewardTime < now
    requires st.rewardMultiplier.Some?
    requires (U64_LIMIT - (now - UserInfoOf(st, account).lastRewardTime)) * st.rewardMultiplier.value < U256_LIMIT
    ensures GetRewards(InvertedAsWritten, st, account, now)
         == Ok((U64_LIMIT - (now - UserInfoOf(st, account).lastRewardTime)) * st.rewardMultiplier.value)
  {
  }

  /**
   Concrete instance: an account that last accrued at block time 1000 and acts
   at 1010 with multiplier 2 gets 2 * (2^64 - 10) under the formula as
   written, where the elapsed-time reading gives 20.
   */
  lemma InvertedRewardCounterexample(st: Store, account: AccountHash)
    requires UserInfoOf(st, account).lastRewardTime == 1000
    requires st.rewardMultiplier == Some(2)
    ensures GetRewards(InvertedAsWritten, st, account, 1010) == Ok(2 * (U64_LIMIT - 10))
    ensures GetRewards(InvertedAsWritten, st, account, 1010) != Ok(20)
    ensures GetRewards(Elapsed, st, account, 1010) == Ok(20)
  {
    assert RewardInterval(InvertedAsWritten, 1000, 1010) == Ok(U64_LIMIT - 10);
  }

  /**
   The corrected formula: an account that last accrued at `last` earns
   exactly `(now - last) * multiplier` at a later block time.
   */
  lemma ElapsedRewardIsProportional(st: Store, account: AccountHash, now: Time)
    requires 0 < UserInfoOf(st, account).lastRewardTime <= now
    requires st.rewardMultiplier.Some?
    requires (now - UserInfoOf(st, account).lastRewardTime) * st.rewardMultiplier.value < U256_LIMIT
    ensures GetRewards(Elapsed, st, account, now)
         == Ok((now - UserInfoOf(st, account).lastRewardTime) * st.rewardMultiplier.value)
  {
  }

  /** Distributes a product over a split interval. */
  lemma SplitInterval(t0: nat, t1: nat, t2: nat, m: nat)
    requires t0 <= t1 <= t2
    ensures 0 <= (t1 - t0) * m && 0 <= (t2 - t1) * m
    ensures (t1 - t0) * m + (t2 - t1) * m == (t2 - t0) * m
  {
    calc {
      (t1 - t0) * m + (t2 - t1) * m;
      ((t1 - t0) + (t2 - t1)) * m;
      (t2 - t0) * m;
    }
  }

  /**
   With the corrected formula accrual does not depend on how often an account
   is touched: accruing at `t1` (the claim/restake touch, amount 0) and then
   at `t2` leaves the same `available` as accruing once at `t2`.
   */
  lemma ElapsedAccrualIsPathIndependent(st: Store, account: AccountHash, t1: Time, t2: Time)
    requires 0 < UserInfoOf(st, account).lastRewardTime <= t1 <= t2
    requires st.rewardMultiplier.Some?
    requires Accrued(Elapsed, st, account, t2).Ok?
    ensures UpdateAvailable(Elapsed, st, account, t1, 0, true).Ok?
    ensures
      var st1 := SetUser(st, account, UpdateAvailable(Elapsed, st, account, t1, 0, true).value);
      Accrued(Elapsed, st1, account, t2) == Accrued(Elapsed, st, account, t2)
  {
    var info := UserInfoOf(st, account);
    var t0 := info.lastRewardTime;
    var m := st.rewardMultiplier.value;
    var early, late, whole := (t1 - t0) * m, (t2 - t1) * m, (t2 - t0) * m;
    SplitInterval(t0, t1, t2, m);
    assert 0 <= early && 0 <= late && early + late == whole;
    ElapsedRewardIsProportional(st, account, t2);
    assert GetRewards(Elapsed, st, account, t2) == Ok(whole);
    assert info.available + whole < U256_LIMIT;
    ElapsedRewardIsProportional(st, account, t1);
    assert GetRewards(Elapsed, st, account, t1) == Ok(early);
    assert Accrued(Elapsed, st, account, t1) == Ok(info.available + early);
    var touched := UserInfo(info.amount, info.available + early, t1);
    assert UpdateAvailable(Elapsed, st, account, t1, 0, true) == Ok(touched);
    var st1 := SetUser(st, account, touched);
    assert UserInfoOf(st1, account) == touched;
    ElapsedRewardIsProportional(st1, account, t2);
    assert GetRewards(Elapsed, st1, account, t2) == Ok(late);
  }

  /**
   The formula as written is not path independent: touching an account in
   between changes what it ends up with. Here an account that accrued at 1000
   with multiplier 1 and nothing available, asked at 1002 directly, gets
   2^64 - 2; touched at 1001 first it gets (2^64 - 1) + (2^64 - 1).
   */
  lemma InvertedAccrualDependsOnPath(st: Store, account: AccountHash)
    requires UserInfoOf(st, account) == UserInfo(5, 0, 1000)
    requires st.rewardMultiplier == Some(1)
    ensures UpdateAvailable(InvertedAsWritten, st, account, 1001, 0, true).Ok?
    ensures
      var st1 := SetUser(st, account, UpdateAvailable(InvertedAsWritten, st, account, 1001, 0, true).value);
      && Accrued(InvertedAsWritten, st, account, 1002) == Ok(U64_LIMIT - 2)
      && Accrued(InvertedAsWritten, st1, account, 1002) == Ok(2 * (U64_LIMIT - 1))
  {
    assert RewardInterval(InvertedAsWritten, 1000, 1001) == Ok(U64_LIMIT - 1);
    assert RewardInterval(InvertedAsWritten, 1000, 1002) == Ok(U64_LIMIT - 2);
    assert RewardInterval(InvertedAsWritten, 1001, 1002) == Ok(U64_LIMIT - 1);
  }
}

=== FILE: types.dfy ===
/**
 Shared vocabulary of the staking contract: the bounded integer types of the
 Casper runtime (U256 balances, u64 block time), opaque identifiers, the
 error taxonomy and a failure-compatible Result.
 */
module Types {

  /** 2^256: one past the largest U256. */
  const U256_LIMIT: nat := 0x1_0000_0000_0000_0000_0000_0000_0000_0000_0000_0000_0000_0000_0000_0000_0000_0000

  /** 2^64: one past the largest u64 (the contract's `Time`). */
  const U64_LIMIT: nat := 0x1_0000_0000_0000_0000

  type U256 = x: nat | x < U256_LIMIT
  type U64 = x: nat | x < U64_LIMIT

  /** Block time, as the runtime reports it. */
  type Time = U64

  /** An account hash (the caller identity the runtime supplies). */
  type AccountHash = nat

  /** A contract hash (the staking token's address). */
  type ContractHash = nat

  /** A contract package hash (the staking contract's own holding address). */
  type PackageHash = nat

  /** The runtime's `Key`: the two kinds of address the token calls use. */
  datatype Key = AccountKey(account: AccountHash) | PackageKey(package: PackageHash)

  /**
   Ways an operation can end abnormally. Every one of them makes the whole
   transaction revert.
   - InsufficientAmount: the contract's only domain error, unstaking more than the principal.
   - ArithmeticOverflow: a `checked_add`/`checked_sub`/`checked_mul` returned None and was unwrapped.
   - MissingKey: a named key read with `get_key(..).unwrap()` before it was ever stored.
   - ReentrantCall: the reentrancy latch was already set on entry to a guarded entry point.
   - AccessDenied: the caller does not hold a uref of the entry point's access group.
   */
  datatype Error =
    | InsufficientAmount
    | ArithmeticOverflow
    | MissingKey
    | ReentrantCall
    | AccessDenied

  /**
   The `ApiError::User` code an error surfaces as. The domain error is user
   code 1; an unwrapped overflow is a panic, which traps instead of reverting
   with a user code. The codes of the other errors come from code outside this
   model and are left as None.
   */
  function UserErrorCode(e: Error): (code: Option<nat>)
    ensures e == InsufficientAmount ==> code == Some(1)
    ensures e == ArithmeticOverflow ==> code.None?
  {
    if e == InsufficientAmount then Some(1) else None
  }

  datatype Option<+T> = None | Some(value: T) {
    function GetOr(default: T): T {
      match this
      case Some(v) => v
      case None => default
    }
  }

  datatype Result<+T> = Ok(value: T) | Err(error: Error) {
    predicate IsFailure() {
      Err?
    }

    function PropagateFailure<U>(): Result<U>
      requires Err?
    {
      Err(error)
    }

    function Extract(): T
      requires Ok?
    {
      value
    }
  }

  /** U256::checked_add(..).unwrap() */
  function CheckedAdd(a: U256, b: U256): (r: Result<U256>)
    ensures r.Ok? <==> a + b < U256_LIMIT
    ensures r.Ok? ==> r.value == a + b
    ensures r.Err? ==> r.error == ArithmeticOverflow
  {
    if a + b < U256_LIMIT then Ok(a + b) else Err(ArithmeticOverflow)
  }

  /** U256::checked_sub(..).unwrap() */
  function CheckedSub(a: U256, b: U256): (r: Result<U256>)
    ensures r.Ok? <==> b <= a
    ensures r.Ok? ==> r.value + b == a
    ensures r.Err? ==> r.error == ArithmeticOverflow
  {
    if b <= a then Ok(a - b) else Err(ArithmeticOverflow)
  }

  /** U256::checked_mul(..).unwrap() */
  function CheckedMul(a: U256, b: U256): (r: Result<U256>)
    ensures r.Ok? <==> a * b < U256_LIMIT
    ensures r.Ok? ==> r.value == a * b
    ensures r.Err? ==> r.error == ArithmeticOverflow
  {
    if a * b < U256_LIMIT then Ok(a * b) else Err(ArithmeticOverflow)
  }

  /**
   The u64 `a - b` of a build without overflow checks: the difference
   wrapped modulo 2^64.
   */
  function WrappingSub64(a: U64, b: U64): (r: U64)
    ensures b <= a ==> r == a - b
    ensures a < b ==> r == U64_LIMIT - (b - a)
  {
    (a - b) % U64_LIMIT
  }
}
